=== FILE: README.md ===
# pact-backend decision logic in Dafny

This project models the three pieces of sequential decision code in the
pact-backend service:

- **Friend-relationship transitions.** `getFriends`, `getRequests`,
  `sendRequest`, `acceptRequest` and `declineRequest` run over a graph of
  directed `REQUESTED` edges and undirected `FRIENDS` edges.
  Each helper runs its checks in a fixed order. A `null` store reply becomes
  its own error, distinct from `false`. The writes come only after the checks,
  one after another.
- **Pact validation and orchestration.** This covers the create-input
  validator, with its fixed field order and JavaScript truthiness (a numeric
  `0` is rejected). It also covers the participant-existence check, and the
  create, delete and update ("verify exists, validate, delete, re-create with
  the same id, re-add participants") orchestrations.
- **Registration and login.** This covers the registration input rules and
  the decision structure of `register`, `login` and `comparePassword`.

Every handler is a pure function. It takes the store state, plus a
description of how each store call behaves in this run. It returns a run
record with three parts: the store afterwards, the store calls or writes in
the order they happen, and the reply (`Success` for a resolved promise,
`Failure` carrying the error for a rejected one).

Files:

| file | module | contents |
|---|---|---|
| wrappers.dfy | `Wrappers` | `Option`, `Result`, `Outcome` |
| js.dfy | `Js` | parsed JSON values, UTF-16 strings, truthiness, `.length`, `v[i]` |
| friend_graph.dfy | `FriendGraph` | edge state, the consistency invariant, assumed store-call contracts with faults |
| friends_handler.dfy | `FriendsHandler` | the five helpers of friends/FriendsHandler.js |
| friends_properties.dfy | `FriendsProperties` | consistency over any run, send/accept/decline scenarios |
| pact_store.dfy | `PactStore` | Pact and participant tables, username lookup |
| pact_handler.dfy | `PactHandler` | validator, participant check, create/delete/update |
| pact_properties.dfy | `PactProperties` | truthiness and ordering consequences |
| auth_handler.dfy | `AuthHandler` | input rules, register, login, comparePassword |

## Store assumptions

The graph-store functions `User.areFriends`, `User.hasRequested`,
`User.createRequest`, `User.deleteRequest`, `User.addFriend`,
`User.getFriends` and `User.getRequests` are defined in no file of the
repository that this model covers. So `FriendGraph` states their behaviour as
assumptions, not as proved facts:

- `areFriends(a, b)` is true when the unordered pair {a, b} is a friend edge.
- `hasRequested(a, b)` is true when a request exists between a and b in either direction.
- `createRequest(from, to)` adds the directed request from→to, with no duplicates.
- `deleteRequest(a, b)` removes the requests between a and b in both directions. The consistency of the graph after an accept depends on this: a one-way delete would leave a reverse request between new friends.
- `addFriend(a, b)` adds the friend edge {a, b}.
- `getFriends(id)` answers with the ids befriended with `id`.
- `getRequests(id)` answers with the ids that have a pending request to `id`.
- The `user_id` of a request body is always a string id. The model does not cover a body without one.
- Any of these calls can answer normally (`Healthy`), resolve with `null`
  (`NullReply`), or reject (`Throws`).
- A write that does not answer normally changes nothing.

`Pact.addPartcipantsToPact` (plural) is not defined either: db/Pact.js only
has the singular `addPartcipantToPact`. It is assumed to append one
participant row per user id, in order.

db/User.js and db/Pact.js pass a lookup value to the SQL driver unchanged
(`User.findByEmail`, `User.findByUsername`, `Pact.findPact`). What a number,
an array or an object matches there is up to the driver. The model assumes
that a lookup by a value that is not a string finds nothing. This covers the
object `{ email }` that `register` passes (see "## Findings").

The database schema is not part of the repository. The model assumes:

- Lookups compare strings exactly, code unit by code unit, as under a binary
  collation. Under a case-insensitive collation (MySQL's usual default) a
  participant "Charans2" would find the user "charans2", where the model
  reports a missing participant.
- The `User` table has no unique index on `email`, so `User.create` always
  appends a row. `User.findByEmail` returns `user[0]`, the first matching row,
  which is taken to be the oldest one.
- The `PactParticipants` rows refer to their pact without a cascading or
  restricting foreign key. So `DELETE FROM Pact` deletes only the `Pact` row
  and leaves the participant rows. `DeletePactRun` and
  `UpdateKeepsOldParticipantRows` rest on this.

The other pact-store operations follow db/Pact.js:

- `Pact.createPact` keeps a supplied truthy `pact_id`. Otherwise it uses a fresh `uuid()`.
- `Pact.deletePact` echoes its argument.

Strings are sequences of UTF-16 code units, as in JavaScript. So `length`
and indexing count code units: a character outside the Basic Multilingual
Plane counts as two.

## Behaviour the handlers do not guard against

- `sendRequest` checks only friendship. It does not check for a repeated
  request or a reverse request, so a reverse request is stored alongside the
  pending one (`ReverseRequestIsCreated`).
- No handler checks for a request to oneself: such a request is stored
  (`SelfRequestIsCreated`).
- The checks and writes are separate store calls, not one atomic unit.
  If the delete in `acceptRequest` succeeds and the add then fails, the
  request is lost and the pair is still not friends (`FailedAddDropsRequest`).
- Under the assumed direction-agnostic `hasRequested`, the sender of a request
  can accept it (`SenderCanAcceptOwnRequest`).

## Model

| member | source | states |
|---|---|---|
| FriendsHandler.GetFriends | friends/FriendsHandler.js:137-144 | succeeds exactly when the store answers; the result lists exactly the friends of the id; a `null` reply rejects with "Error fetching friends."; a rejected call propagates its own error; nothing is written |
| FriendsHandler.GetRequests | friends/FriendsHandler.js:146-153 | succeeds exactly when the store answers; the result lists exactly the ids with a request to the id; a `null` reply rejects with "Error fetching friend requests."; a rejected call propagates its own error |
| FriendsHandler.SendRequest | friends/FriendsHandler.js:155-169 | succeeds iff the friendship check answers `false` and the create succeeds, then stores the request id→user_id and returns the body unchanged; already friends rejects with "Users are already friends." and `createRequest` is never called; a `null` check rejects with "Error checking if already friends." and a rejected check propagates without creating; a falsy create reply rejects with the reused "Error fetching friend requests." and a rejected one propagates; a failure writes nothing; friend edges never change |
| FriendsHandler.PendingChecks | friends/FriendsHandler.js:172-184 | request existence is checked before friendship; passes iff a request exists and the pair are not friends; a missing request gives "User has not received friend request." without the friendship query; each `null` reply gives its own error and each rejected call propagates, with the calls made so far |
| FriendsHandler.AcceptRequest | friends/FriendsHandler.js:171-198 | succeeds iff both checks pass and both writes succeed, then the requests between the pair are removed and the friend edge added; a failed check changes nothing and deletes nothing; a delete that does not succeed leaves the store unchanged, rejecting with "Error deleting friend request." on a falsy reply and with its own error when rejected; `addFriend` is called only after a successful delete, as the fourth call; an add that does not succeed leaves the requests removed and the friends unchanged, rejecting with "Error adding friend." on a falsy reply and with its own error when rejected |
| FriendsHandler.DeclineRequest | friends/FriendsHandler.js:200-221 | the same checks and errors as accept; succeeds iff they pass and the delete succeeds, removing only the requests; a falsy delete reply rejects with "Error deleting friend request." and a rejected one propagates; `addFriend` is never called and friend edges never change |
| FriendsProperties.SendKeepsConsistent | friends/FriendsHandler.js:155-168 | a send keeps the graph consistent (never friends and requested at once) under any store replies |
| FriendsProperties.AcceptKeepsConsistent | friends/FriendsHandler.js:171-198 | an accept keeps the graph consistent under any store replies, including a failed add after a successful delete; this relies on the assumed both-direction `deleteRequest` |
| FriendsProperties.DeclineKeepsConsistent | friends/FriendsHandler.js:200-221 | a decline keeps the graph consistent under any store replies |
| FriendsProperties.ConsistentAfterAnyRun | friends/FriendsHandler.js:155-221 | the graph stays consistent after every sequence of sends, accepts and declines with any faults, starting from a consistent graph; accepts rely on the assumed both-direction `deleteRequest` |
| FriendsProperties.SentRequestIsPending | friends/FriendsHandler.js:155-168 | after a successful send the pair has a request and are not friends |
| FriendsProperties.SendThenAcceptBefriends | friends/FriendsHandler.js:155-198 | a send followed by the recipient's accept makes the pair friends with no request left |
| FriendsProperties.SecondAcceptFails | friends/FriendsHandler.js:172-177 | repeating a successful accept rejects with "User has not received friend request." and changes nothing |
| FriendsProperties.DeclineWithoutRequestChangesNothing | friends/FriendsHandler.js:200-206 | declining with no request rejects with "User has not received friend request." and leaves the graph unchanged |
| FriendsProperties.DeclineSharesAcceptChecks | friends/FriendsHandler.js:200-213 | when the checks fail, accept and decline produce the same run |
| FriendsProperties.FailedAddDropsRequest | friends/FriendsHandler.js:185-197 | a successful delete followed by a failed add leaves the pair with neither a request nor a friend edge |
| FriendsProperties.SelfRequestIsCreated | friends/FriendsHandler.js:155-168 | from any graph where a user is not their own friend, a request to oneself is accepted and stored |
| FriendsProperties.ReverseRequestIsCreated | friends/FriendsHandler.js:155-168 | from any graph where the pair are not friends, a request in the reverse direction of a pending one is created too |
| FriendsProperties.SenderCanAcceptOwnRequest | friends/FriendsHandler.js:171-198 | from any graph where the pair are not friends, with the direction-agnostic existence check, the sender can accept their own request |
| PactHandler.CheckCreatePactInput | pact/PactHandler.js:43-60 | resolves iff every field is valid; otherwise reports an invalid field all of whose predecessors in the order title, description, streak, period_length, period_target, privacy_level, participants are valid; on success the fields are the body's, with non-zero numbers and at least two participants (a string counts its UTF-16 code units) |
| PactHandler.CheckUsernameInput | pact/PactHandler.js:62-69 | returns true iff every participant has a user record; when false, it stopped at the first missing name after looking up exactly the names up to it |
| PactHandler.ResolveIds | pact/PactHandler.js:70-74 | maps the names to their user ids in order; fails only when a name has no user |
| PactHandler.AddPactParticipants | pact/PactHandler.js:70-77 | appends one participant row per resolved id, in order, after the existing rows, and returns the pact unchanged |
| PactHandler.CreatePact | pact/PactHandler.js:79-95 | succeeds iff validation passes and every participant exists; a validation failure rejects with the validator's error, a missing participant with "Participants error. Participant does not exist."; a failure writes nothing; on success the pact is inserted under the fresh id with the body's fields, and one participant row per name is appended in order, holding that name's user id; the users table is untouched |
| PactHandler.DeletePactRun | pact/PactHandler.js:97-110 | a missing pact rejects with "Pact error. Pact does not exist." and deletes nothing; otherwise only that pact row is removed and its id echoed; participant rows and the users table are untouched |
| PactHandler.UpdatePact | pact/PactHandler.js:140-162 | a missing pact rejects first; for an existing pact a validation failure rejects with the validator's error and a missing participant with "Participants error. Participant does not exist."; succeeds iff the pact exists, the body validates and every participant exists; a failure writes nothing; on success with a non-empty id the writes are delete, insert under the same id, add participants; the old participant rows are kept and one row per name is appended in order, holding that name's user id; the users table is untouched |
| PactProperties.ZeroIsRejected | pact/PactHandler.js:48-53 | a numeric field equal to 0 is rejected with that field's error once the earlier fields are valid |
| PactProperties.FirstFailureWins | pact/PactHandler.js:43-58 | when two fields are invalid, the later one is never reported |
| PactProperties.ParticipantCountBoundary | pact/PactHandler.js:56-57 | one participant is rejected, two are accepted |
| PactProperties.StringParticipantsPass | pact/PactHandler.js:56-64 | a string of two or more UTF-16 code units passes the participant check; one emoji is such a string, and its two lookups are of the lone surrogates its code units form |
| PactProperties.MissingParticipantBlocksCreate | pact/PactHandler.js:79-87 | a participant without a user makes create reject with "Participants error. Participant does not exist." with no writes |
| PactProperties.UpdateKeepsOldParticipantRows | db/Pact.js:14-20 | every participant row present before an update is still present after it |
| PactProperties.EmptyIdIsReplaced | db/Pact.js:4-8 | a pact stored under the empty id is re-created by update under a fresh id |
| PactProperties.DeleteThenDeleteFails | pact/PactHandler.js:97-110 | after a successful delete the pact no longer exists, and deleting again rejects with "Pact error. Pact does not exist." |
| PactProperties.UpdateChecksExistenceFirst | pact/PactHandler.js:140-144 | a missing pact is reported even when the title is invalid too |
| AuthHandler.CheckIfInputIsValid | auth/AuthHandler.js:47-67 | passes iff the password has length at least 8, the username is a string of at least 6 and the email a non-empty string, lengths in UTF-16 code units; a bad password is reported first, then the username, then the email |
| AuthHandler.RegisterLookingUp | auth/AuthHandler.js:69-83 | invalid input makes no lookup and no write; a lookup that finds a user rejects with "User with that email exists." without hashing or creating; a rejected hash rejects without creating; otherwise exactly one row is appended with the new id, the body's email and username and the hashed password, and a 24-hour token for the new id is returned |
| AuthHandler.Register | auth/AuthHandler.js:69-83 | `register` with the email looked up as a string: succeeds iff the input is valid, no row has the email and the hash resolves; a taken email rejects with "User with that email exists." with no write; emails that were unique stay unique; on success one row is appended with the new id, and a lookup by the email finds it |
| AuthHandler.RegisterAsWritten | auth/AuthHandler.js:69-83 | with the object `{ email }` looked up, "User with that email exists." is never the reply; succeeds iff the input is valid and the hash resolves, appending one row |
| AuthHandler.TakenEmailIsNotRejected | auth/AuthHandler.js:72 | registering an email already in use succeeds, leaves two rows with that email, and a login lookup by that email still finds the older row |
| AuthHandler.ComparePassword | auth/AuthHandler.js:95-103 | a token for the user iff `bcrypt.compare` resolves `true`; `false` gives "The credentials do not match."; a rejected comparison propagates its own error |
| AuthHandler.Login | auth/AuthHandler.js:85-93 | never writes; an unknown email rejects with "User with that email does not exits."; succeeds iff the user exists and the comparison resolves `true`, returning a token for that user; a mismatch and a rejected comparison each give their own error and sign nothing |
| AuthHandler.RegisterThenLogin | auth/AuthHandler.js:69-103 | logging in with the credentials just registered returns the registration's token |
| AuthHandler.LengthBoundaries | auth/AuthHandler.js:48-59 | passwords of 7 code units and usernames of 5 are rejected; 8 and 6 are accepted |
| AuthHandler.NonStringPasswordPasses | auth/AuthHandler.js:48-52 | a password that is an array of eight items passes validation |
| AuthHandler.LengthsCountCodeUnits | auth/AuthHandler.js:48-59 | a password of four emoji (8 code units) and the username "abc" plus two emoji (7 code units) are accepted |
| AuthHandler.NonStringPasswordNeverRegisters | auth/AuthHandler.js:74-81 | when `bcrypt.hash` rejects non-strings, a non-string password never registers and no user is created |
| AuthHandler.NonStringPasswordNeverLogsIn | auth/AuthHandler.js:85-97 | when `bcrypt.compare` rejects non-strings, a login with a missing or non-string password never returns a token, and for a known email it rejects with the comparison's error |

## Findings

| source | as written | input that shows it | evidently intended | confidence | as-written member | corrected member |
|---|---|---|---|---|---|---|
| auth/AuthHandler.js:72 | `register` hands `User.findByEmail` the object `{ email }`, while `login` (auth/AuthHandler.js:86) hands it the string; a lookup by an object finds nobody, so the taken-email check never fires | register twice with the same valid email and password: the second call also succeeds and appends a second row with that email, and a login with it still compares against the first row | look up the email string and reject a taken email with "User with that email exists." | medium, not executed: depends on how the SQL driver formats an object, which is outside this model | AuthHandler.RegisterAsWritten, AuthHandler.TakenEmailIsNotRejected | AuthHandler.Register |

## Left out

- The Lambda entry points (friends/FriendsHandler.js:11-131, pact/PactHandler.js:4-41, auth/AuthHandler.js:9-35) are request plumbing and are not modelled: JWT decoding, the 403 reply, status codes, `JSON.parse`/`JSON.stringify` and `callbackWaitsForEmptyEventLoop`.
- `bcrypt.hash`, `bcrypt.compare` and `jwt.sign` are foreign libraries. They are function parameters of `Register` and `Login`, so the bcrypt salt is part of the supplied hash function. A rejected hash or comparison is `None`. That bcryptjs rejects non-string passwords is stated as the predicates `HashRejectsNonStrings` and `CompareRejectsNonStrings`, not built in. The library's error text is not modelled.
- `uuid()` is nondeterministic, so it is a parameter. The value is assumed non-empty and unused (`FreshId`), and a collision is not modelled.
- Connection setup in db.js and neo4j.js, and the SQL and driver calls, are reduced to the store contracts described above.
- Driver exceptions from the pact and user tables are not modelled (`Pact.*`, `User.findByUsername`, `User.findByEmail`, `User.create`). Those calls always succeed here. Graph-store rejections are modelled.
- The driver's own error text for a rejected store call is not modelled (`StoreFailure`).
- Concurrency is not modelled: only single-threaded executions of the promise chains are covered. This includes interleavings between the check and the write, and a participant deleted between `checkUsernameInput` and `addPactParticipants` (the `ParticipantVanished` error exists but is unreachable in sequential runs).
- `checkUpdatePactInput` (pact/PactHandler.js:112-138) is defined but never called.
- pact/TestPact.js and auth/TestUser.js are scripts with hard-coded data, not assertions.
- A malformed JSON body is not modelled (`JSON.parse` throws).
- Nested objects in a body are opaque: their `length` property reads as `undefined`.
- Numbers are exact rationals, not IEEE doubles. A body number such as `1e400`, which `JSON.parse` reads as `Infinity`, is outside the model.
- `console.log` calls are not modelled.
- FriendsHandler.GetFriends: returns the set of friend ids rather than the store's ordered list of profile records, because the store's record shape and order are not visible.
- FriendsHandler.GetRequests: returns the set of requester ids rather than the store's ordered list of profile records, for the same reason.

=== FILE: auth_handler.dfy ===
/** The auth handler: the registration input rules with their fixed check
    order, and the decision structure of `register`, `login` and
    `comparePassword`. `bcrypt.hash`, `bcrypt.compare` and `jwt.sign` are
    foreign libraries and appear as function parameters; the `User` table is
    reduced to its rows and the lookup by email. */
module AuthHandler {
  import opened Wrappers
  import Js

  /** The bcrypt cost factor `register` hashes with. */
  const SaltRounds: nat := 8

  /** `expiresIn` of every signed token: 24 hours, in seconds. */
  const TokenLifetime: nat := 86400

  /** The payload and options handed to `jwt.sign`. */
  datatype Claims = Claims(id: string, expiresIn: nat)

  /** The resolved value of `register` and `login`: `{ auth: true, token }`. */
  datatype Session = Session(auth: bool, token: string)

  /** A `User` row as `User.create` inserts it. */
  datatype UserRow = UserRow(
    user_id: string,
    firstname: Js.Value,
    lastname: Js.Value,
    username: Js.JsString,
    email: Js.JsString,
    password: string,
    location: Js.Value)

  /** The `User` table: its rows in insertion order. Nothing makes emails
      unique, so two rows may share one. */
  type Users = seq<UserRow>

  /** The index of the first row with `email`, or `|users|` when none has it. */
  function FirstWithEmail(users: Users, email: Js.JsString): (i: nat)
    ensures i <= |users|
    ensures i < |users| ==> users[i].email == email
    ensures forall j :: 0 <= j < i ==> users[j].email != email
    decreases |users|
  {
    if |users| == 0 || users[0].email == email then 0
    else
      var rest := FirstWithEmail(users[1..], email);
      assert forall j :: 1 <= j < |users| ==> users[j] == users[1..][j - 1];
      1 + rest
  }

  predicate EmailInUse(users: Users, email: Js.JsString) {
    exists i :: 0 <= i < |users| && users[i].email == email
  }

  /** No two rows share an email. */
  predicate UniqueEmails(users: Users) {
    forall i, j :: 0 <= i < j < |users| ==> users[i].email != users[j].email
  }

  /** `User.findByEmail(v)`: `user[0]`, the first row whose email equals
      `v`; a value that is not a string finds nobody. */
  function FindByEmail(users: Users, v: Js.Value): (r: Option<UserRow>)
    ensures r.Some? <==> v.Str? && EmailInUse(users, v.s)
    ensures r.Some? ==> r.value in users && r.value.email == v.s
  {
    if v.Str? && FirstWithEmail(users, v.s) < |users| then Some(users[FirstWithEmail(users, v.s)]) else None
  }

  datatype AuthError =
    | PasswordInvalid
    | UsernameInvalid
    | EmailInvalid
    | EmailTaken
    | UnknownEmail
    | CredentialsMismatch
      /** `bcrypt.hash` rejected its arguments; the library's text propagates */
    | HashRejected
      /** `bcrypt.compare` rejected its arguments; the library's text propagates */
    | CompareRejected

  function Message(e: AuthError): string {
    match e
    case PasswordInvalid => "Password error. Password needs to be at least 8 characters."
    case UsernameInvalid => "Username error. Username needs to be longer than 5 characters"
    case EmailInvalid => "Email error. Email must have valid characters."
    case EmailTaken => "User with that email exists."
    case UnknownEmail => "User with that email does not exits."
    case CredentialsMismatch => "The credentials do not match."
    case HashRejected => "(bcrypt error)"
    case CompareRejected => "(bcrypt error)"
  }

  /** A password must be truthy with a `length` of at least 8; its type is
      not checked, so an array of eight items passes. */
  predicate PasswordValid(v: Js.Value) {
    Js.Truthy(v) && Js.LengthAbove(v, 7)
  }

  /** A username must be a string longer than 5 characters. */
  predicate UsernameValid(v: Js.Value) {
    Js.Truthy(v) && Js.LengthAbove(v, 5) && v.Str?
  }

  /** An email must be a non-empty string. */
  predicate EmailValid(v: Js.Value) {
    Js.Truthy(v) && v.Str?
  }

  /** `checkIfInputIsValid(body)`: password, then username, then email. */
  function CheckIfInputIsValid(body: Js.Body): (r: Outcome<AuthError>)
    ensures r.Pass? <==>
      && Js.Length(Js.Get(body, "password")).Some? && Js.Length(Js.Get(body, "password")).value >= 8
      && Js.Get(body, "username").Str? && |Js.Get(body, "username").s| >= 6
      && Js.Get(body, "email").Str? && Js.Get(body, "email").s != []
    ensures !PasswordValid(Js.Get(body, "password")) ==> r == Fail(PasswordInvalid)
    ensures PasswordValid(Js.Get(body, "password")) && !UsernameValid(Js.Get(body, "username")) ==>
      r == Fail(UsernameInvalid)
    ensures r == Fail(EmailInvalid) <==>
      PasswordValid(Js.Get(body, "password")) && UsernameValid(Js.Get(body, "username")) &&
      !EmailValid(Js.Get(body, "email"))
  {
    if !PasswordValid(Js.Get(body, "password")) then Fail(PasswordInvalid)
    else if !UsernameValid(Js.Get(body, "username")) then Fail(UsernameInvalid)
    else if !EmailValid(Js.Get(body, "email")) then Fail(EmailInvalid)
    else Pass
  }

  /** The external steps a run takes, in order. */
  datatype AuthStep = LookedUpEmail | Hashed | CreatedUser | Compared | Signed

  datatype AuthRun = AuthRun(users: Users, steps: seq<AuthStep>, reply: Result<Session, AuthError>)

  /** What `bcryptjs` does with a password that is not a string: it
      rejects with "Illegal arguments". */
  ghost predicate HashRejectsNonStrings(hash: (Js.Value, nat) -> Option<string>) {
    forall v: Js.Value, rounds: nat :: !v.Str? ==> hash(v, rounds).None?
  }

  /** The same for `bcrypt.compare`: a password that is not a string, such
      as a missing one, is rejected before any comparison. */
  ghost predicate CompareRejectsNonStrings(compare: (Js.Value, string) -> Option<bool>) {
    forall v: Js.Value, stored: string :: !v.Str? ==> compare(v, stored).None?
  }

  /** The decision structure of `register(body)`, with the value handed to
      `User.findByEmail` as the parameter `key`: validates, rejects when the
      lookup finds a user, otherwise hashes the password, appends the new
      row under `newId` and signs a token for it. `hash` is `bcrypt.hash`,
      with `None` for a rejected promise. */
  function RegisterLookingUp(users: Users, body: Js.Body, key: Js.Value, newId: string,
                             hash: (Js.Value, nat) -> Option<string>, sign: Claims -> string): (run: AuthRun)
    ensures run.reply.Success? <==>
      && CheckIfInputIsValid(body).Pass?
      && FindByEmail(users, key).None?
      && hash(Js.Get(body, "password"), SaltRounds).Some?
    ensures CheckIfInputIsValid(body).Fail? ==>
      run == AuthRun(users, [], Failure(CheckIfInputIsValid(body).error))
    ensures CheckIfInputIsValid(body).Pass? && FindByEmail(users, key).Some? ==>
      run == AuthRun(users, [LookedUpEmail], Failure(EmailTaken))
    ensures CheckIfInputIsValid(body).Pass? && FindByEmail(users, key).None? &&
            hash(Js.Get(body, "password"), SaltRounds).None? ==>
      run == AuthRun(users, [LookedUpEmail, Hashed], Failure(HashRejected))
    ensures run.reply.Failure? ==> run.users == users && CreatedUser !in run.steps
    ensures run.reply.Success? ==>
      && |run.users| == |users| + 1
      && run.users[..|users|] == users
      && run.users[|users|].user_id == newId
      && Js.Str(run.users[|users|].email) == Js.Get(body, "email")
      && Some(run.users[|users|].password) == hash(Js.Get(body, "password"), SaltRounds)
      && Js.Str(run.users[|users|].username) == Js.Get(body, "username")
      && run.reply.value == Session(true, sign(Claims(newId, TokenLifetime)))
      && run.steps == [LookedUpEmail, Hashed, CreatedUser, Signed]
  {
    match CheckIfInputIsValid(body)
    case Fail(e) => AuthRun(users, [], Failure(e))
    case Pass =>
      if FindByEmail(users, key).Some? then
        AuthRun(users, [LookedUpEmail], Failure(EmailTaken))
      else
        match hash(Js.Get(body, "password"), SaltRounds)
        case None => AuthRun(users, [LookedUpEmail, Hashed], Failure(HashRejected))
        case Some(hashed) =>
          var row := UserRow(newId, Js.Get(body, "firstname"), Js.Get(body, "lastname"), Js.Get(body, "username").s,
                             Js.Get(body, "email").s, hashed, Js.Get(body, "location"));
          AuthRun(users + [row], [LookedUpEmail, Hashed, CreatedUser, Signed],
                  Success(Session(true, sign(Claims(newId, TokenLifetime)))))
  }

  /** `register(body)` with the email looked up as the string it is, as
      `login` does: a taken email is rejected, so registration never
      creates a second row for one email. */
  function Register(users: Users, body: Js.Body, newId: string,
                    hash: (Js.Value, nat) -> Option<string>, sign: Claims -> string): (run: AuthRun)
    ensures run.reply.Success? <==>
      && CheckIfInputIsValid(body).Pass?
      && !EmailInUse(users, Js.Get(body, "email").s)
      && hash(Js.Get(body, "password"), SaltRounds).Some?
    ensures CheckIfInputIsValid(body).Pass? && EmailInUse(users, Js.Get(body, "email").s) ==>
      run == AuthRun(users, [LookedUpEmail], Failure(EmailTaken))
    ensures UniqueEmails(users) ==> UniqueEmails(run.users)
    ensures run.reply.Success? ==>
      && |run.users| == |users| + 1
      && FindByEmail(run.users, Js.Get(body, "email")) == Some(run.users[|users|])
      && run.users[|users|].user_id == newId
  {
    RegisterLookingUp(users, body, Js.Get(body, "email"), newId, hash, sign)
  }

  /** `register(body)` as auth/AuthHandler.js:72 writes it: the lookup is
      handed the object `{ email }`, which finds nobody, so a taken email is
      never rejected. */
  function RegisterAsWritten(users: Users, body: Js.Body, newId: string,
                             hash: (Js.Value, nat) -> Option<string>, sign: Claims -> string): (run: AuthRun)
    ensures run.reply != Failure(EmailTaken)
    ensures run.reply.Success? <==>
      CheckIfInputIsValid(body).Pass? && hash(Js.Get(body, "password"), SaltRounds).Some?
    ensures run.reply.Success? ==> |run.users| == |users| + 1 && run.users[..|users|] == users
  {
    RegisterLookingUp(users, body, Js.Obj, newId, hash, sign)
  }

  /** `comparePassword(eventPassword, userPassword, userId)`: a token for the
      user when `bcrypt.compare` resolves with `true`, the mismatch error when
      it resolves with `false`, and its own rejection otherwise. `compare` is
      `bcrypt.compare`, with `None` for a rejected promise. */
  function ComparePassword(given: Js.Value, stored: string, userId: string, compare: (Js.Value, string) -> Option<bool>, sign: Claims -> string): (r: Result<string, AuthError>)
    ensures r.Success? <==> compare(given, stored) == Some(true)
    ensures compare(given, stored) == Some(false) ==> r == Failure(CredentialsMismatch)
    ensures compare(given, stored).None? ==> r == Failure(CompareRejected)
    ensures r.Success? ==> r.value == sign(Claims(userId, TokenLifetime))
  {
    match compare(given, stored)
    case None => Failure(CompareRejected)
    case Some(accepted) =>
      if accepted then Success(sign(Claims(userId, TokenLifetime))) else Failure(CredentialsMismatch)
  }

  /** `login(body)`: the user with the email, then the password comparison;
      the table is never written. */
  function Login(users: Users, body: Js.Body, compare: (Js.Value, string) -> Option<bool>, sign: Claims -> string): (run: AuthRun)
    ensures run.users == users
    ensures FindByEmail(users, Js.Get(body, "email")).None? ==>
      run.reply == Failure(UnknownEmail) && run.steps == [LookedUpEmail]
    ensures run.reply.Success? <==>
      && FindByEmail(users, Js.Get(body, "email")).Some?
      && compare(Js.Get(body, "password"), FindByEmail(users, Js.Get(body, "email")).value.password) == Some(true)
    ensures FindByEmail(users, Js.Get(body, "email")).Some? &&
            compare(Js.Get(body, "password"), FindByEmail(users, Js.Get(body, "email")).value.password).None? ==>
      run.reply == Failure(CompareRejected) && run.steps == [LookedUpEmail, Compared]
    ensures FindByEmail(users, Js.Get(body, "email")).Some? &&
            compare(Js.Get(body, "password"), FindByEmail(users, Js.Get(body, "email")).value.password) == Some(false) ==>
      run.reply == Failure(CredentialsMismatch) && run.steps == [LookedUpEmail, Compared]
    ensures run.reply.Failure? ==> Signed !in run.steps
    ensures run.reply.Success? ==>
      run.reply.value == Session(true, sign(Claims(FindByEmail(users, Js.Get(body, "email")).value.user_id, TokenLifetime)))
  {
    match FindByEmail(users, Js.Get(body, "email"))
    case None => AuthRun(users, [LookedUpEmail], Failure(UnknownEmail))
    case Some(user) =>
      match ComparePassword(Js.Get(body, "password"), user.password, user.user_id, compare, sign)
      case Failure(e) => AuthRun(users, [LookedUpEmail, Compared], Failure(e))
      case Success(token) => AuthRun(users, [LookedUpEmail, Compared, Signed], Success(Session(true, token)))
  }

  /** Registering an email already in use succeeds when the lookup is
      handed the object: a second row with that email is appended, and a
      later login with that email still finds the older row. */
  lemma TakenEmailIsNotRejected(users: Users, body: Js.Body, newId: string,
                                hash: (Js.Value, nat) -> Option<string>, sign: Claims -> string)
    requires CheckIfInputIsValid(body).Pass?
    requires EmailInUse(users, Js.Get(body, "email").s)
    requires hash(Js.Get(body, "password"), SaltRounds).Some?
    ensures var run := RegisterAsWritten(users, body, newId, hash, sign);
      && run.reply.Success?
      && !UniqueEmails(run.users)
      && FindByEmail(run.users, Js.Get(body, "email")) == FindByEmail(users, Js.Get(body, "email"))
  {
  }

  /** Logging in with the email and password just registered yields the
      token registration returned, provided `bcrypt.compare` accepts a
      password against its own hash. */
  lemma RegisterThenLogin(users: Users, body: Js.Body, newId: string, hash: (Js.Value, nat) -> Option<string>,
                                             compare: (Js.Value, string) -> Option<bool>, sign: Claims -> string)
    requires Register(users, body, newId, hash, sign).reply.Success?
    requires compare(Js.Get(body, "password"), hash(Js.Get(body, "password"), SaltRounds).value) == Some(true)
    ensures var registered := Register(users, body, newId, hash, sign);
      var credentials := map["email" := Js.Get(body, "email"), "password" := Js.Get(body, "password")];
      Login(registered.users, credentials, compare, sign).reply == registered.reply
  {
  }

  /** The length boundaries: 8 password code units and 6 username code
      units are the least accepted. */
  lemma LengthBoundaries(p7: Js.JsString, p8: Js.JsString, u5: Js.JsString, u6: Js.JsString)
    requires |p7| == 7 && |p8| == 8 && |u5| == 5 && |u6| == 6
    ensures !PasswordValid(Js.Str(p7)) && PasswordValid(Js.Str(p8))
    ensures !UsernameValid(Js.Str(u5)) && UsernameValid(Js.Str(u6))
  {
  }

  /** Lengths count UTF-16 code units, so a character outside the Basic
      Multilingual Plane counts twice: four emoji make a valid password and
      "abc" followed by two emoji a valid username. */
  lemma LengthsCountCodeUnits()
    ensures PasswordValid(Js.Str(Js.Utf16("😀😀😀😀")))
    ensures UsernameValid(Js.Str(Js.Utf16("abc😀😀")))
    ensures !UsernameValid(Js.Str(Js.Utf16("abcde")))
  {
    assert |Js.Utf16("😀😀😀😀")| == 8;
    assert |Js.Utf16("abc😀😀")| == 7;
    assert |Js.Utf16("abcde")| == 5;
  }

  /** A password that is an array of eight items passes validation. */
  lemma NonStringPasswordPasses(items: seq<Js.Value>)
    requires |items| == 8
    ensures PasswordValid(Js.Arr(items))
  {
  }

  /** Such a password is then refused by `bcrypt.hash`, so registration
      rejects and no user is created. */
  lemma NonStringPasswordNeverRegisters(users: Users, body: Js.Body, newId: string,
                                        hash: (Js.Value, nat) -> Option<string>, sign: Claims -> string)
    requires HashRejectsNonStrings(hash)
    requires !Js.Get(body, "password").Str?
    ensures Register(users, body, newId, hash, sign).reply.Failure?
    ensures Register(users, body, newId, hash, sign).users == users
  {
  }

  /** Under the same library behaviour, a login whose password is missing
      or not a string never yields a token: an unknown email is reported
      first, otherwise `bcrypt.compare`'s rejection propagates. */
  lemma NonStringPasswordNeverLogsIn(users: Users, body: Js.Body,
                                     compare: (Js.Value, string) -> Option<bool>, sign: Claims -> string)
    requires CompareRejectsNonStrings(compare)
    requires !Js.Get(body, "password").Str?
    ensures Login(users, body, compare, sign).reply.Failure?
    ensures FindByEmail(users, Js.Get(body, "email")).Some? ==>
      Login(users, body, compare, sign).reply == Failure(CompareRejected)
  {
  }
}

=== FILE: friend_graph.dfy ===
/** The graph store behind the friends handlers. The store functions
    `User.areFriends`, `User.hasRequested`, `User.createRequest`,
    `User.deleteRequest`, `User.addFriend`, `User.getFriends` and
    `User.getRequests` are not defined in any file of this model, so what
    each of them does is stated here as an ASSUMED contract, not proved. */
module FriendGraph {

  type UserId = string

  /** The edge state: directed `REQUESTED` pairs (requester, recipient) and
      undirected `FRIENDS` pairs, each an unordered set of two ids. */
  datatype Graph = Graph(requests: set<(UserId, UserId)>, friends: set<set<UserId>>)

  const Empty := Graph({}, {})

  predicate AreFriends(g: Graph, a: UserId, b: UserId) {
    {a, b} in g.friends
  }

  /** Existence of a request is direction-agnostic. */
  predicate HasRequested(g: Graph, a: UserId, b: UserId) {
    (a, b) in g.requests || (b, a) in g.requests
  }

  /** The consistency invariant: a pair is never both friends and requested. */
  ghost predicate Consistent(g: Graph) {
    forall p :: p in g.requests ==> !AreFriends(g, p.0, p.1)
  }

  /** The store calls a handler can make, as they appear in a call trace. */
  datatype StoreOp =
    | AreFriendsOp
    | HasRequestedOp
    | CreateRequestOp
    | DeleteRequestOp
    | AddFriendOp
    | GetFriendsOp
    | GetRequestsOp

  /** How one store call behaves: it answers normally, it resolves with
      `null` (a write that resolves with a falsy value wrote nothing), or its
      promise rejects with a driver error. */
  datatype Fault = Healthy | NullReply | Throws

  /** The behaviour of each store call during one handler run; calls not
      mentioned answer normally. Each handler calls each store function at
      most once, so one fault per call kind is enough. */
  type Faults = map<StoreOp, Fault>

  const NoFaults: Faults := map[]

  function FaultOf(faults: Faults, op: StoreOp): Fault {
    if op in faults then faults[op] else Healthy
  }

  /** What a store call's promise settles to. */
  datatype Reply<+T> = Value(v: T) | Null | Rejected

  /** A store call's reply together with the store state after it. */
  datatype Call<+T> = Call(reply: Reply<T>, after: Graph)

  function Answer<T>(fault: Fault, v: T): Reply<T> {
    match fault
    case Healthy => Value(v)
    case NullReply => Null
    case Throws => Rejected
  }

  /** A write applies its change only when healthy, and then reports success. */
  function Write(g: Graph, fault: Fault, changed: Graph): Call<bool> {
    if fault == Healthy then Call(Value(true), changed) else Call(Answer(fault, false), g)
  }

  function AreFriendsCall(g: Graph, fault: Fault, a: UserId, b: UserId): Reply<bool> {
    Answer(fault, AreFriends(g, a, b))
  }

  function HasRequestedCall(g: Graph, fault: Fault, a: UserId, b: UserId): Reply<bool> {
    Answer(fault, HasRequested(g, a, b))
  }

  /** Creates the directed request `from -> to`; an existing one is not duplicated. */
  function CreateRequestCall(g: Graph, fault: Fault, from: UserId, to: UserId): Call<bool> {
    Write(g, fault, g.(requests := g.requests + {(from, to)}))
  }

  /** Removes any request between the pair, in either direction. */
  function DeleteRequestCall(g: Graph, fault: Fault, a: UserId, b: UserId): Call<bool> {
    Write(g, fault, g.(requests := g.requests - {(a, b), (b, a)}))
  }

  function AddFriendCall(g: Graph, fault: Fault, a: UserId, b: UserId): Call<bool> {
    Write(g, fault, g.(friends := g.friends + {{a, b}}))
  }

  /** The ids befriended with `id`. */
  function FriendsOf(g: Graph, id: UserId): (r: set<UserId>)
    ensures forall x :: x in r <==> AreFriends(g, id, x)
  {
    var r := set s, x | s in g.friends && x in s && s == {id, x} :: x;
    assert forall x :: AreFriends(g, id, x) ==> x in {id, x} && x in r;
    r
  }

  /** The ids with an outstanding request towards `id`. */
  function RequestersOf(g: Graph, id: UserId): (r: set<UserId>)
    ensures forall x :: x in r <==> (x, id) in g.requests
  {
    set p | p in g.requests && p.1 == id :: p.0
  }

  function GetFriendsCall(g: Graph, fault: Fault, id: UserId): Reply<set<UserId>> {
    Answer(fault, FriendsOf(g, id))
  }

  function GetRequestsCall(g: Graph, fault: Fault, id: UserId): Reply<set<UserId>> {
    Answer(fault, RequestersOf(g, id))
  }

  /** Friendship is symmetric because a friend edge is an unordered pair. */
  lemma AreFriendsSymmetric(g: Graph, a: UserId, b: UserId)
    ensures AreFriends(g, a, b) <==> AreFriends(g, b, a)
  {
    assert {a, b} == {b, a};
  }
}

=== FILE: friends_handler.dfy ===
/** The helper functions of the friends handler: each runs its precondition
    checks against the graph store in a fixed order, turns a `null` reply into
    an error of its own (distinct from a `false` answer), and only then
    performs its writes, one after the other. */
module FriendsHandler {
  import opened Wrappers
  import opened FriendGraph
  import Js

  /** The errors the helpers reject with; `Message` gives their text. */
  datatype FriendError =
    | FetchFriendsFailed
    | FetchRequestsFailed
    | FriendCheckFailed
    | AlreadyFriends
    | CreateRequestFailed
    | RequestCheckFailed
    | NoRequest
    | DeleteRequestFailed
    | AddFriendFailed
      /** a store promise rejected; its driver error propagates unchanged */
    | StoreFailure

  function Message(e: FriendError): string {
    match e
    case FetchFriendsFailed => "Error fetching friends."
    case FetchRequestsFailed => "Error fetching friend requests."
    case FriendCheckFailed => "Error checking if already friends."
    case AlreadyFriends => "Users are already friends."
    // the failed-create branch reuses the text of the fetch error
    case CreateRequestFailed => "Error fetching friend requests."
    case RequestCheckFailed => "Error checking if friend request exists."
    case NoRequest => "User has not received friend request."
    case DeleteRequestFailed => "Error deleting friend request."
    case AddFriendFailed => "Error adding friend."
    case StoreFailure => "(driver error)"
  }

  /** The parsed request body: the other user's id and whatever else the
      client sent, which the helpers hand back untouched. */
  datatype FriendBody = FriendBody(user_id: UserId, others: Js.Body)

  datatype FriendsView = FriendsView(friends: set<UserId>)

  datatype RequestsView = RequestsView(requests: set<UserId>)

  /** One helper run: the store afterwards, the store calls made in order,
      and what the returned promise settles to. */
  datatype Run<+T> = Run(store: Graph, calls: seq<StoreOp>, reply: Result<T, FriendError>)

  /** A boolean pre-check: `null` fails with `nullError`, the answer `bad`
      fails with `badError`, the other answer passes. */
  function CheckReply(reply: Reply<bool>, nullError: FriendError, bad: bool, badError: FriendError): Outcome<FriendError> {
    match reply
    case Rejected => Fail(StoreFailure)
    case Null => Fail(nullError)
    case Value(b) => if b == bad then Fail(badError) else Pass
  }

  /** A write's reply: any falsy success value fails with `error`. */
  function WriteOutcome(reply: Reply<bool>, error: FriendError): Outcome<FriendError> {
    match reply
    case Rejected => Fail(StoreFailure)
    case Null => Fail(error)
    case Value(ok) => if ok then Pass else Fail(error)
  }

  /** `getFriends(id)`: wraps the store's friend list, rejects on `null`. */
  function GetFriends(g: Graph, faults: Faults, id: UserId): (run: Run<FriendsView>)
    ensures run.store == g && run.calls == [GetFriendsOp]
    ensures run.reply.Success? <==> FaultOf(faults, GetFriendsOp) == Healthy
    ensures run.reply.Success? ==> forall x :: x in run.reply.value.friends <==> AreFriends(g, id, x)
    ensures FaultOf(faults, GetFriendsOp) == NullReply ==> run.reply == Failure(FetchFriendsFailed)
    ensures FaultOf(faults, GetFriendsOp) == Throws ==> run.reply == Failure(StoreFailure)
  {
    match GetFriendsCall(g, FaultOf(faults, GetFriendsOp), id)
    case Rejected => Run(g, [GetFriendsOp], Failure(StoreFailure))
    case Null => Run(g, [GetFriendsOp], Failure(FetchFriendsFailed))
    case Value(friends) => Run(g, [GetFriendsOp], Success(FriendsView(friends)))
  }

  /** `getRequests(id)`: wraps the store's incoming requests, rejects on `null`. */
  function GetRequests(g: Graph, faults: Faults, id: UserId): (run: Run<RequestsView>)
    ensures run.store == g && run.calls == [GetRequestsOp]
    ensures run.reply.Success? <==> FaultOf(faults, GetRequestsOp) == Healthy
    ensures run.reply.Success? ==> forall x :: x in run.reply.value.requests <==> (x, id) in g.requests
    ensures FaultOf(faults, GetRequestsOp) == NullReply ==> run.reply == Failure(FetchRequestsFailed)
    ensures FaultOf(faults, GetRequestsOp) == Throws ==> run.reply == Failure(StoreFailure)
  {
    match GetRequestsCall(g, FaultOf(faults, GetRequestsOp), id)
    case Rejected => Run(g, [GetRequestsOp], Failure(StoreFailure))
    case Null => Run(g, [GetRequestsOp], Failure(FetchRequestsFailed))
    case Value(requesters) => Run(g, [GetRequestsOp], Success(RequestsView(requesters)))
  }

  /** `sendRequest(id, body)`: checks friendship only, then creates the
      request `id -> body.user_id` and resolves with the body. */
  function SendRequest(g: Graph, faults: Faults, id: UserId, body: FriendBody): (run: Run<FriendBody>)
    ensures run.store.friends == g.friends
    ensures run.reply.Success? <==>
      && FaultOf(faults, AreFriendsOp) == Healthy
      && !AreFriends(g, id, body.user_id)
      && FaultOf(faults, CreateRequestOp) == Healthy
    ensures run.reply.Success? ==>
      run.reply.value == body && run.store.requests == g.requests + {(id, body.user_id)}
    ensures run.reply.Failure? ==> run.store == g
    ensures CreateRequestOp in run.calls <==>
      FaultOf(faults, AreFriendsOp) == Healthy && !AreFriends(g, id, body.user_id)
    ensures run.calls == [AreFriendsOp] || run.calls == [AreFriendsOp, CreateRequestOp]
    ensures FaultOf(faults, AreFriendsOp) == Healthy && AreFriends(g, id, body.user_id) ==>
      run.reply == Failure(AlreadyFriends)
    ensures FaultOf(faults, AreFriendsOp) == NullReply ==> run.reply == Failure(FriendCheckFailed)
    ensures FaultOf(faults, AreFriendsOp) == Throws ==> run.reply == Failure(StoreFailure) && run.calls == [AreFriendsOp]
    ensures CreateRequestOp in run.calls && FaultOf(faults, CreateRequestOp) == NullReply ==>
      run.reply == Failure(CreateRequestFailed)
    ensures CreateRequestOp in run.calls && FaultOf(faults, CreateRequestOp) == Throws ==>
      run.reply == Failure(StoreFailure)
  {
    var to := body.user_id;
    var check := CheckReply(AreFriendsCall(g, FaultOf(faults, AreFriendsOp), id, to), FriendCheckFailed, true, AlreadyFriends);
    if check.Fail? then
      Run(g, [AreFriendsOp], Failure(check.error))
    else
      var created := CreateRequestCall(g, FaultOf(faults, CreateRequestOp), id, to);
      var written := WriteOutcome(created.reply, CreateRequestFailed);
      Run(created.after, [AreFriendsOp, CreateRequestOp],
          if written.Fail? then Failure(written.error) else Success(body))
  }

  /** The two checks `acceptRequest` and `declineRequest` share, with the
      store calls they made: a request exists between the pair, then the pair
      are not already friends. */
  datatype Checked = Checked(outcome: Outcome<FriendError>, calls: seq<StoreOp>)

  function PendingChecks(g: Graph, faults: Faults, id: UserId, other: UserId): (c: Checked)
    ensures c.outcome.Pass? <==>
      && FaultOf(faults, HasRequestedOp) == Healthy && HasRequested(g, id, other)
      && FaultOf(faults, AreFriendsOp) == Healthy && !AreFriends(g, id, other)
    ensures c.calls == [HasRequestedOp] || c.calls == [HasRequestedOp, AreFriendsOp]
    ensures FaultOf(faults, HasRequestedOp) == NullReply ==>
      c == Checked(Fail(RequestCheckFailed), [HasRequestedOp])
    ensures FaultOf(faults, HasRequestedOp) == Throws ==>
      c == Checked(Fail(StoreFailure), [HasRequestedOp])
    ensures FaultOf(faults, HasRequestedOp) == Healthy && !HasRequested(g, id, other) ==>
      c == Checked(Fail(NoRequest), [HasRequestedOp])
    ensures FaultOf(faults, HasRequestedOp) == Healthy && HasRequested(g, id, other) &&
            FaultOf(faults, AreFriendsOp) == Healthy && AreFriends(g, id, other) ==>
      c == Checked(Fail(AlreadyFriends), [HasRequestedOp, AreFriendsOp])
    ensures FaultOf(faults, HasRequestedOp) == Healthy && HasRequested(g, id, other) &&
            FaultOf(faults, AreFriendsOp) == NullReply ==>
      c == Checked(Fail(FriendCheckFailed), [HasRequestedOp, AreFriendsOp])
    ensures FaultOf(faults, HasRequestedOp) == Healthy && HasRequested(g, id, other) &&
            FaultOf(faults, AreFriendsOp) == Throws ==>
      c == Checked(Fail(StoreFailure), [HasRequestedOp, AreFriendsOp])
  {
    var requested := CheckReply(HasRequestedCall(g, FaultOf(faults, HasRequestedOp), id, other), RequestCheckFailed, false, NoRequest);
    if requested.Fail? then
      Checked(requested, [HasRequestedOp])
    else
      Checked(CheckReply(AreFriendsCall(g, FaultOf(faults, AreFriendsOp), id, other), FriendCheckFailed, true, AlreadyFriends),
              [HasRequestedOp, AreFriendsOp])
  }

  /** `acceptRequest(id, body)`: after both checks, deletes the request and
      then adds the friend edge; a failed delete stops before the add. */
  function AcceptRequest(g: Graph, faults: Faults, id: UserId, body: FriendBody): (run: Run<FriendBody>)
    ensures PendingChecks(g, faults, id, body.user_id).outcome.Fail? ==>
      && run.reply == Failure(PendingChecks(g, faults, id, body.user_id).outcome.error)
      && run.store == g
      && run.calls == PendingChecks(g, faults, id, body.user_id).calls
    ensures run.reply.Success? <==>
      && PendingChecks(g, faults, id, body.user_id).outcome.Pass?
      && FaultOf(faults, DeleteRequestOp) == Healthy
      && FaultOf(faults, AddFriendOp) == Healthy
    ensures run.reply.Success? ==>
      && run.reply.value == body
      && run.store.requests == g.requests - {(id, body.user_id), (body.user_id, id)}
      && run.store.friends == g.friends + {{id, body.user_id}}
    ensures DeleteRequestOp in run.calls <==> PendingChecks(g, faults, id, body.user_id).outcome.Pass?
    ensures DeleteRequestOp !in run.calls ==> run.store == g
    ensures AddFriendOp in run.calls <==>
      PendingChecks(g, faults, id, body.user_id).outcome.Pass? && FaultOf(faults, DeleteRequestOp) == Healthy
    ensures AddFriendOp in run.calls ==>
      run.calls == [HasRequestedOp, AreFriendsOp, DeleteRequestOp, AddFriendOp]
    ensures DeleteRequestOp in run.calls && FaultOf(faults, DeleteRequestOp) != Healthy ==>
      run.store == g && run.calls == [HasRequestedOp, AreFriendsOp, DeleteRequestOp]
    ensures DeleteRequestOp in run.calls && FaultOf(faults, DeleteRequestOp) == NullReply ==>
      run.reply == Failure(DeleteRequestFailed)
    ensures DeleteRequestOp in run.calls && FaultOf(faults, DeleteRequestOp) == Throws ==>
      run.reply == Failure(StoreFailure)
    ensures AddFriendOp in run.calls && FaultOf(faults, AddFriendOp) != Healthy ==>
      && run.store.requests == g.requests - {(id, body.user_id), (body.user_id, id)}
      && run.store.friends == g.friends
    ensures AddFriendOp in run.calls && FaultOf(faults, AddFriendOp) == NullReply ==>
      run.reply == Failure(AddFriendFailed)
    ensures AddFriendOp in run.calls && FaultOf(faults, AddFriendOp) == Throws ==>
      run.reply == Failure(StoreFailure)
  {
    var other := body.user_id;
    var pre := PendingChecks(g, faults, id, other);
    if pre.outcome.Fail? then
      Run(g, pre.calls, Failure(pre.outcome.error))
    else
      var deleted := DeleteRequestCall(g, FaultOf(faults, DeleteRequestOp), id, other);
      var removed := WriteOutcome(deleted.reply, DeleteRequestFailed);
      if removed.Fail? then
        Run(deleted.after, pre.calls + [DeleteRequestOp], Failure(removed.error))
      else
        var added := AddFriendCall(deleted.after, FaultOf(faults, AddFriendOp), id, other);
        var befriended := WriteOutcome(added.reply, AddFriendFailed);
        Run(added.after, pre.calls + [DeleteRequestOp, AddFriendOp],
            if befriended.Fail? then Failure(befriended.error) else Success(body))
  }

  /** `declineRequest(id, body)`: the same checks, then only the delete. */
  function DeclineRequest(g: Graph, faults: Faults, id: UserId, body: FriendBody): (run: Run<FriendBody>)
    ensures PendingChecks(g, faults, id, body.user_id).outcome.Fail? ==>
      && run.reply == Failure(PendingChecks(g, faults, id, body.user_id).outcome.error)
      && run.store == g
      && run.calls == PendingChecks(g, faults, id, body.user_id).calls
    ensures run.store.friends == g.friends
    ensures AddFriendOp !in run.calls
    ensures run.reply.Success? <==>
      PendingChecks(g, faults, id, body.user_id).outcome.Pass? && FaultOf(faults, DeleteRequestOp) == Healthy
    ensures run.reply.Success? ==>
      run.reply.value == body && run.store.requests == g.requests - {(id, body.user_id), (body.user_id, id)}
    ensures run.reply.Failure? ==> run.store == g
    ensures DeleteRequestOp in run.calls <==> PendingChecks(g, faults, id, body.user_id).outcome.Pass?
    ensures DeleteRequestOp in run.calls && FaultOf(faults, DeleteRequestOp) == NullReply ==>
      run.reply == Failure(DeleteRequestFailed)
    ensures DeleteRequestOp in run.calls && FaultOf(faults, DeleteRequestOp) == Throws ==>
      run.reply == Failure(StoreFailure)
  {
    var other := body.user_id;
    var pre := PendingChecks(g, faults, id, other);
    if pre.outcome.Fail? then
      Run(g, pre.calls, Failure(pre.outcome.error))
    else
      var deleted := DeleteRequestCall(g, FaultOf(faults, DeleteRequestOp), id, other);
      var removed := WriteOutcome(deleted.reply, DeleteRequestFailed);
      Run(deleted.after, pre.calls + [DeleteRequestOp],
          if removed.Fail? then Failure(removed.error) else Success(body))
  }
}

=== FILE: friends_properties.dfy ===
/** Properties of the friend-relationship transitions that relate several
    calls: consistency (never friends and requested at once) over any run,
    the send/accept/decline scenarios, and what the handlers do NOT check. */
module FriendsProperties {
  import opened Wrappers
  import opened FriendGraph
  import opened FriendsHandler

  /** One transition as the caller `actor` requests it. */
  datatype Action =
    | Send(actor: UserId, body: FriendBody)
    | Accept(actor: UserId, body: FriendBody)
    | Decline(actor: UserId, body: FriendBody)

  function Step(g: Graph, faults: Faults, a: Action): Graph {
    match a
    case Send(actor, body) => SendRequest(g, faults, actor, body).store
    case Accept(actor, body) => AcceptRequest(g, faults, actor, body).store
    case Decline(actor, body) => DeclineRequest(g, faults, actor, body).store
  }

  /** The store after a sequence of transitions, each with its own faults. */
  function RunAll(g: Graph, steps: seq<(Action, Faults)>): Graph
    decreases |steps|
  {
    if |steps| == 0 then g else RunAll(Step(g, steps[0].1, steps[0].0), steps[1..])
  }

  function Body(user: UserId): FriendBody {
    FriendBody(user, map[])
  }

  /** Each transition keeps the graph consistent, whatever the store replies.
      Accept relies on `deleteRequest` removing both directions: with a
      one-way delete, a pair with requests pending both ways (reachable, see
      `ReverseRequestIsCreated`) would end up friends with a request left. */
  lemma SendKeepsConsistent(g: Graph, faults: Faults, actor: UserId, body: FriendBody)
    requires Consistent(g)
    ensures Consistent(SendRequest(g, faults, actor, body).store)
  {
  }

  lemma AcceptKeepsConsistent(g: Graph, faults: Faults, actor: UserId, body: FriendBody)
    requires Consistent(g)
    ensures Consistent(AcceptRequest(g, faults, actor, body).store)
  {
  }

  lemma DeclineKeepsConsistent(g: Graph, faults: Faults, actor: UserId, body: FriendBody)
    requires Consistent(g)
    ensures Consistent(DeclineRequest(g, faults, actor, body).store)
  {
  }

  /** Consistency survives every sequence of sends, accepts and declines,
      whatever the store replies along the way. */
  lemma {:induction false} ConsistentAfterAnyRun(g: Graph, steps: seq<(Action, Faults)>)
    requires Consistent(g)
    ensures Consistent(RunAll(g, steps))
    decreases |steps|
  {
    if |steps| > 0 {
      var (a, faults) := steps[0];
      match a {
        case Send(actor, body) => SendKeepsConsistent(g, faults, actor, body);
        case Accept(actor, body) => AcceptKeepsConsistent(g, faults, actor, body);
        case Decline(actor, body) => DeclineKeepsConsistent(g, faults, actor, body);
      }
      ConsistentAfterAnyRun(Step(g, faults, a), steps[1..]);
    }
  }

  /** After a successful send the pair has a request and are not friends. */
  lemma SentRequestIsPending(g: Graph, faults: Faults, a: UserId, b: UserId)
    requires SendRequest(g, faults, a, Body(b)).reply.Success?
    ensures HasRequested(SendRequest(g, faults, a, Body(b)).store, a, b)
    ensures !AreFriends(SendRequest(g, faults, a, Body(b)).store, a, b)
  {
  }

  /** A send followed by the recipient's accept leaves the pair friends with
      no request left in either direction. */
  lemma SendThenAcceptBefriends(g: Graph, a: UserId, b: UserId)
    requires !AreFriends(g, a, b)
    ensures var sent := SendRequest(g, NoFaults, a, Body(b));
      && sent.reply.Success?
      && var accepted := AcceptRequest(sent.store, NoFaults, b, Body(a));
      && accepted.reply.Success?
      && AreFriends(accepted.store, a, b)
      && !HasRequested(accepted.store, a, b)
  {
    var sent := SendRequest(g, NoFaults, a, Body(b));
    AreFriendsSymmetric(sent.store, a, b);
    assert HasRequested(sent.store, b, a);
    var accepted := AcceptRequest(sent.store, NoFaults, b, Body(a));
    AreFriendsSymmetric(accepted.store, a, b);
  }

  /** Once an accept has succeeded, repeating it fails with "User has not
      received friend request." and changes nothing. */
  lemma SecondAcceptFails(g: Graph, faults: Faults, actor: UserId, body: FriendBody, again: Faults)
    requires AcceptRequest(g, faults, actor, body).reply.Success?
    requires FaultOf(again, HasRequestedOp) == Healthy
    ensures var first := AcceptRequest(g, faults, actor, body);
      var second := AcceptRequest(first.store, again, actor, body);
      second.reply == Failure(NoRequest) && second.store == first.store
  {
  }

  /** Declining where no request exists fails and leaves the graph as it was. */
  lemma DeclineWithoutRequestChangesNothing(g: Graph, faults: Faults, actor: UserId, body: FriendBody)
    requires FaultOf(faults, HasRequestedOp) == Healthy && !HasRequested(g, actor, body.user_id)
    ensures DeclineRequest(g, faults, actor, body).reply == Failure(NoRequest)
    ensures DeclineRequest(g, faults, actor, body).store == g
  {
  }

  /** `declineRequest` rejects on exactly the same checks, with the same
      errors, as `acceptRequest`. */
  lemma DeclineSharesAcceptChecks(g: Graph, faults: Faults, actor: UserId, body: FriendBody)
    ensures PendingChecks(g, faults, actor, body.user_id).outcome.Fail? <==>
      DeleteRequestOp !in AcceptRequest(g, faults, actor, body).calls
    ensures DeleteRequestOp !in AcceptRequest(g, faults, actor, body).calls ==>
      AcceptRequest(g, faults, actor, body) == DeclineRequest(g, faults, actor, body)
  {
  }

  /** The checks are not atomic with the writes: when the delete succeeds
      but the friend edge cannot be added, the request is gone and the pair
      are still not friends. */
  lemma FailedAddDropsRequest(g: Graph, faults: Faults, actor: UserId, body: FriendBody)
    requires PendingChecks(g, faults, actor, body.user_id).outcome.Pass?
    requires FaultOf(faults, DeleteRequestOp) == Healthy && FaultOf(faults, AddFriendOp) != Healthy
    ensures var run := AcceptRequest(g, faults, actor, body);
      && run.reply.Failure?
      && !HasRequested(run.store, actor, body.user_id)
      && !AreFriends(run.store, actor, body.user_id)
  {
  }

  /** The handler does not refuse a request to oneself: from any graph in
      which `u` is not its own friend, the request is stored. */
  lemma SelfRequestIsCreated(g: Graph, u: UserId)
    requires !AreFriends(g, u, u)
    ensures var run := SendRequest(g, NoFaults, u, Body(u));
      run.reply.Success? && (u, u) in run.store.requests
  {
  }

  /** The handler does not refuse a request when the reverse one is pending:
      from any graph in which the pair are not friends, both directions end
      up stored. */
  lemma ReverseRequestIsCreated(g: Graph, a: UserId, b: UserId)
    requires !AreFriends(g, a, b)
    ensures var first := SendRequest(g, NoFaults, a, Body(b));
      var second := SendRequest(first.store, NoFaults, b, Body(a));
      && second.reply.Success?
      && (a, b) in second.store.requests && (b, a) in second.store.requests
  {
    AreFriendsSymmetric(SendRequest(g, NoFaults, a, Body(b)).store, a, b);
  }

  /** Because the existence check is direction-agnostic, the sender may
      accept their own request, from any graph in which the pair are not
      friends. */
  lemma SenderCanAcceptOwnRequest(g: Graph, a: UserId, b: UserId)
    requires !AreFriends(g, a, b)
    ensures var sent := SendRequest(g, NoFaults, a, Body(b));
      var accepted := AcceptRequest(sent.store, NoFaults, a, Body(b));
      accepted.reply.Success? && AreFriends(accepted.store, a, b)
  {
  }
}

=== FILE: js.dfy ===
/** The slice of JavaScript value semantics the handlers depend on: JSON
    values as `JSON.parse` produces them, truthiness, `typeof` and `.length`. */
module Js {
  import opened Wrappers

  /** A UTF-16 code unit: JavaScript strings are sequences of these, and
      `length` and indexing count them. */
  type CodeUnit = u: int | 0 <= u < 0x1_0000

  type JsString = seq<CodeUnit>

  /** The UTF-16 encoding of a Unicode text: a character outside the Basic
      Multilingual Plane becomes a surrogate pair of two code units. */
  function Utf16(text: string): (units: JsString)
    ensures |units| >= |text|
  {
    if |text| == 0 then []
    else
      var c := text[0] as int;
      var head: JsString :=
        if c < 0x1_0000 then [c]
        else [0xD800 + (c - 0x1_0000) / 0x400, 0xDC00 + (c - 0x1_0000) % 0x400];
      head + Utf16(text[1..])
  }

  /** A JSON-parsed value. Numbers are exact rationals, so an overflowing
      literal such as `1e400`, which `JSON.parse` reads as `Infinity`, is not
      represented. A nested object is opaque: the handlers only ever read its
      truthiness and its `length` property, taken to be absent. */
  datatype Value =
    | Undefined
    | Null
    | Bool(b: bool)
    | Num(n: real)
    | Str(s: JsString)
    | Arr(items: seq<Value>)
    | Obj

  /** A request body: the top-level object of the parsed JSON. */
  type Body = map<string, Value>

  /** `body.key`: a missing property reads as `undefined`. */
  function Get(body: Body, key: string): (v: Value)
    ensures key !in body ==> v == Undefined
  {
    if key in body then body[key] else Undefined
  }

  /** JavaScript truthiness: `undefined`, `null`, `false`, `0` and `""` are
      falsy; every array and object, even an empty one, is truthy. */
  predicate Truthy(v: Value) {
    match v
    case Undefined => false
    case Null => false
    case Bool(b) => b
    case Num(n) => n != 0.0
    case Str(s) => |s| > 0
    case Arr(_) => true
    case Obj => true
  }

  /** `v.length`: defined for strings (in UTF-16 code units) and arrays;
      `None` stands for `undefined`, which fails every numeric comparison. */
  function Length(v: Value): Option<nat> {
    match v
    case Str(s) => Some(|s|)
    case Arr(items) => Some(|items|)
    case _ => None
  }

  /** `v.length > n` with `undefined > n` being false. */
  predicate LengthAbove(v: Value, n: int) {
    Length(v).Some? && Length(v).value > n
  }

  /** `v[i]` for `0 <= i < v.length`: a string indexes to the one-unit
      string of its i-th code unit, a lone surrogate included. */
  function Elements(v: Value): (xs: seq<Value>)
    ensures Length(v).Some? ==> |xs| == Length(v).value
    ensures Length(v).None? ==> xs == []
  {
    match v
    case Str(s) => seq(|s|, i requires 0 <= i < |s| => Str([s[i]]))
    case Arr(items) => items
    case _ => []
  }
}

=== FILE: pact_handler.dfy ===
/** The pact handler: the create-input validator with its fixed check order
    and JavaScript truthiness, the participant-existence check, and the
    create, delete and update orchestrations over the pact store. */
module PactHandler {
  import opened Wrappers
  import Js
  import opened PactStore

  /** The validated fields, in the order they are checked. */
  datatype PactField = Title | Description | Streak | PeriodLength | PeriodTarget | PrivacyLevel | Participants

  function Key(f: PactField): string {
    match f
    case Title => "title"
    case Description => "description"
    case Streak => "streak"
    case PeriodLength => "period_length"
    case PeriodTarget => "period_target"
    case PrivacyLevel => "privacy_level"
    case Participants => "participants"
  }

  /** The position of a field in the check order. */
  function Rank(f: PactField): nat {
    match f
    case Title => 0
    case Description => 1
    case Streak => 2
    case PeriodLength => 3
    case PeriodTarget => 4
    case PrivacyLevel => 5
    case Participants => 6
  }

  /** A text field must be a truthy string, a numeric field a truthy number,
      and the participants a truthy value whose `length` exceeds one. */
  predicate FieldValid(body: Js.Body, f: PactField) {
    var v := Js.Get(body, Key(f));
    match f
    case Title => Js.Truthy(v) && v.Str?
    case Description => Js.Truthy(v) && v.Str?
    case Streak => Js.Truthy(v) && v.Num?
    case PeriodLength => Js.Truthy(v) && v.Num?
    case PeriodTarget => Js.Truthy(v) && v.Num?
    case PrivacyLevel => Js.Truthy(v) && v.Str?
    case Participants => Js.Truthy(v) && Js.LengthAbove(v, 1)
  }

  datatype PactError =
    | Invalid(field: PactField)
    | ParticipantMissing
    | PactMissing
      /** `(null).user_id` throws when a participant disappears between the
          existence check and the id lookup */
    | ParticipantVanished

  function Message(e: PactError): string {
    match e
    case Invalid(Title) => "Title error. Title must have valid characters."
    case Invalid(Description) => "Description error. Description must have valid characters."
    case Invalid(Streak) => "Streak error. Streak must be a number."
    case Invalid(PeriodLength) => "Period Length error. Period Length must be a number."
    case Invalid(PeriodTarget) => "Period Target error. Period Target must be a number."
    case Invalid(PrivacyLevel) => "Privacy Level error. Privacy Level must have valid characters."
    case Invalid(Participants) => "Participants error. Must have atleast 2 participants."
    case ParticipantMissing => "Participants error. Participant does not exist."
    case PactMissing => "Pact error. Pact does not exist."
    case ParticipantVanished => "(TypeError)"
  }

  /** The body's fields once the validator has let them through; the
      participants are the values `participants[i]` yields. */
  datatype PactInput = PactInput(
    title: Js.JsString,
    description: Js.JsString,
    streak: real,
    period_length: real,
    period_target: real,
    privacy_level: Js.JsString,
    participants: seq<Js.Value>)

  function RowFor(id: PactId, input: PactInput): PactRow {
    PactRow(id, input.title, input.description, input.streak, input.period_length, input.period_target, input.privacy_level)
  }

  /** `checkCreatePactInput(body)`: reports the first invalid field in check
      order, or resolves with the fields read from the body. */
  function CheckCreatePactInput(body: Js.Body): (r: Result<PactInput, PactError>)
    ensures r.Success? <==> forall f :: FieldValid(body, f)
    ensures r.Failure? ==>
      && r.error.Invalid?
      && !FieldValid(body, r.error.field)
      && forall f :: Rank(f) < Rank(r.error.field) ==> FieldValid(body, f)
    ensures r.Success? ==>
      && Js.Get(body, "title") == Js.Str(r.value.title)
      && Js.Get(body, "description") == Js.Str(r.value.description)
      && Js.Get(body, "streak") == Js.Num(r.value.streak) && r.value.streak != 0.0
      && Js.Get(body, "period_length") == Js.Num(r.value.period_length) && r.value.period_length != 0.0
      && Js.Get(body, "period_target") == Js.Num(r.value.period_target) && r.value.period_target != 0.0
      && Js.Get(body, "privacy_level") == Js.Str(r.value.privacy_level)
      && r.value.participants == Js.Elements(Js.Get(body, "participants"))
      && |r.value.participants| >= 2
  {
    if !FieldValid(body, Title) then Failure(Invalid(Title))
    else if !FieldValid(body, Description) then Failure(Invalid(Description))
    else if !FieldValid(body, Streak) then Failure(Invalid(Streak))
    else if !FieldValid(body, PeriodLength) then Failure(Invalid(PeriodLength))
    else if !FieldValid(body, PeriodTarget) then Failure(Invalid(PeriodTarget))
    else if !FieldValid(body, PrivacyLevel) then Failure(Invalid(PrivacyLevel))
    else if !FieldValid(body, Participants) then Failure(Invalid(Participants))
    else
      Success(PactInput(
        Js.Get(body, "title").s,
        Js.Get(body, "description").s,
        Js.Get(body, "streak").n,
        Js.Get(body, "period_length").n,
        Js.Get(body, "period_target").n,
        Js.Get(body, "privacy_level").s,
        Js.Elements(Js.Get(body, "participants"))))
  }

  /** Every participant name has a user record. */
  predicate AllRegistered(users: map<Js.JsString, UserId>, names: seq<Js.Value>) {
    forall i :: 0 <= i < |names| ==> FindByUsername(users, names[i]).Some?
  }

  /** `checkUsernameInput`: looks the names up one by one and stops at the
      first without a user; `lookups` counts the store queries made. */
  method CheckUsernameInput(db: Db, names: seq<Js.Value>) returns (ok: bool, lookups: nat)
    ensures ok <==> AllRegistered(db.users, names)
    ensures ok ==> lookups == |names|
    ensures !ok ==>
      && 0 < lookups <= |names|
      && FindByUsername(db.users, names[lookups - 1]).None?
      && forall i :: 0 <= i < lookups - 1 ==> FindByUsername(db.users, names[i]).Some?
  {
    var i := 0;
    while i < |names|
      invariant 0 <= i <= |names|
      invariant forall j :: 0 <= j < i ==> FindByUsername(db.users, names[j]).Some?
    {
      var user := FindByUsername(db.users, names[i]);
      if user.None? {
        return false, i + 1;
      }
      i := i + 1;
    }
    return true, |names|;
  }

  /** The user ids of the names, in order; the first name without a user
      makes `(null).user_id` throw. */
  function ResolveIds(users: map<Js.JsString, UserId>, names: seq<Js.Value>): (r: Result<seq<UserId>, PactError>)
    ensures r.Success? <==> AllRegistered(users, names)
    ensures r.Failure? ==> r.error == ParticipantVanished
    ensures r.Success? ==>
      && |r.value| == |names|
      && forall i :: 0 <= i < |names| ==> FindByUsername(users, names[i]) == Some(r.value[i])
    decreases |names|
  {
    if |names| == 0 then Success([])
    else
      match FindByUsername(users, names[0])
      case None => Failure(ParticipantVanished)
      case Some(id) =>
        var rest := ResolveIds(users, names[1..]);
        if rest.Failure? then
          Failure(rest.error)
        else
          assert forall i :: 1 <= i < |names| ==> names[i] == names[1..][i - 1];
          Success([id] + rest.value)
  }

  /** One handler run: the store afterwards, the writes in order, and what
      the returned promise settles to. */
  datatype PactRun<+T> = PactRun(db: Db, writes: seq<Write>, reply: Result<T, PactError>)

  /** The participant rows of `after` are those of `before` followed by one
      row per name, in order, each tying pact `id` to that name's user. */
  ghost predicate NewParticipantRows(before: Db, after: Db, id: PactId, names: seq<Js.Value>) {
    && |after.participants| == |before.participants| + |names|
    && after.participants[..|before.participants|] == before.participants
    && forall i :: 0 <= i < |names| ==>
         && after.participants[|before.participants| + i].0 == id
         && FindByUsername(before.users, names[i]) == Some(after.participants[|before.participants| + i].1)
  }

  /** `addPactParticipants(res, users)`: resolves the names to ids and adds
      them to the pact, then resolves with the pact. */
  function AddPactParticipants(db: Db, done: seq<Write>, row: PactRow, names: seq<Js.Value>): (run: PactRun<PactRow>)
    ensures run.reply.Success? <==> AllRegistered(db.users, names)
    ensures run.reply.Success? ==>
      && run.reply.value == row
      && var ids := ResolveIds(db.users, names).value;
      && run.writes == done + [AddedParticipants(row.pact_id, ids)]
      && run.db == AddParticipants(db, row.pact_id, ids)
      && |run.db.participants| == |db.participants| + |names|
      && run.db.participants[..|db.participants|] == db.participants
      && forall i :: 0 <= i < |names| ==>
           run.db.participants[|db.participants| + i] == (row.pact_id, ids[i])
    ensures run.reply.Success? ==> run.db.users == db.users && NewParticipantRows(db, run.db, row.pact_id, names)
    ensures run.reply.Failure? ==> run.db == db && run.writes == done
  {
    match ResolveIds(db.users, names)
    case Failure(e) => PactRun(db, done, Failure(e))
    case Success(ids) =>
      PactRun(AddParticipants(db, row.pact_id, ids), done + [AddedParticipants(row.pact_id, ids)], Success(row))
  }

  /** The success path shared by create and update: insert the row, then
      add its participants. */
  function StorePact(db: Db, done: seq<Write>, row: PactRow, names: seq<Js.Value>): (run: PactRun<PactRow>)
    requires AllRegistered(db.users, names)
    ensures run.reply == Success(row)
    ensures run.db.pacts == db.pacts[row.pact_id := row]
    ensures run.db.users == db.users
    ensures NewParticipantRows(db, run.db, row.pact_id, names)
    ensures run.writes == done + [InsertedPact(row.pact_id), AddedParticipants(row.pact_id, ResolveIds(db.users, names).value)]
  {
    var inserted := InsertPact(db, row);
    assert inserted.users == db.users && inserted.participants == db.participants;
    AddPactParticipants(inserted, done + [InsertedPact(row.pact_id)], row, names)
  }

  /** `createPact(body)`: validates, checks every participant exists, then
      inserts the pact under a fresh id and adds its participants. */
  function CreatePact(db: Db, body: Js.Body, freshId: PactId): (run: PactRun<PactRow>)
    requires FreshId(db, freshId)
    ensures run.reply.Success? <==>
      && CheckCreatePactInput(body).Success?
      && AllRegistered(db.users, CheckCreatePactInput(body).value.participants)
    ensures CheckCreatePactInput(body).Failure? ==> run.reply == Failure(CheckCreatePactInput(body).error)
    ensures CheckCreatePactInput(body).Success? && !AllRegistered(db.users, CheckCreatePactInput(body).value.participants) ==>
      run.reply == Failure(ParticipantMissing)
    ensures run.reply.Failure? ==> run.db == db && run.writes == []
    ensures run.reply.Success? ==>
      && var input := CheckCreatePactInput(body).value;
      && run.reply.value == RowFor(freshId, input)
      && run.db.pacts == db.pacts[freshId := run.reply.value]
      && run.writes == [InsertedPact(freshId), AddedParticipants(freshId, ResolveIds(db.users, input.participants).value)]
      && run.db.users == db.users
      && NewParticipantRows(db, run.db, freshId, input.participants)
  {
    match CheckCreatePactInput(body)
    case Failure(e) => PactRun(db, [], Failure(e))
    case Success(input) =>
      if !AllRegistered(db.users, input.participants) then
        PactRun(db, [], Failure(ParticipantMissing))
      else
        StorePact(db, [], RowFor(StoredId(None, freshId), input), input.participants)
  }

  /** `deletePact(body)`: rejects when the pact does not exist, otherwise
      deletes it and resolves with the echoed id. */
  function DeletePactRun(db: Db, body: Js.Body): (run: PactRun<PactId>)
    ensures run.reply.Success? <==> PactExists(db, Js.Get(body, "pact_id"))
    ensures run.reply.Failure? ==> run.reply.error == PactMissing && run.db == db && run.writes == []
    ensures run.reply.Success? ==>
      && Js.Get(body, "pact_id") == Js.Str(run.reply.value)
      && run.db.pacts.Keys == db.pacts.Keys - {run.reply.value}
      && (forall id :: id in run.db.pacts ==> run.db.pacts[id] == db.pacts[id])
      && run.db.participants == db.participants
      && run.db.users == db.users
      && run.writes == [DeletedPact(run.reply.value)]
  {
    var v := Js.Get(body, "pact_id");
    if !PactExists(db, v) then PactRun(db, [], Failure(PactMissing))
    else PactRun(DeletePact(db, v.s), [DeletedPact(v.s)], Success(v.s))
  }

  /** The success path of update: delete the pact row, insert the new row
      under the id the delete echoed, and add its participants. */
  function Recreate(db: Db, id: PactId, input: PactInput, freshId: PactId): (run: PactRun<PactRow>)
    requires AllRegistered(db.users, input.participants)
    ensures run.reply == Success(RowFor(StoredId(Some(id), freshId), input))
    ensures run.db.users == db.users
    ensures NewParticipantRows(db, run.db, run.reply.value.pact_id, input.participants)
    ensures id != [] ==>
      && run.db.pacts == db.pacts[id := run.reply.value]
      && run.writes == [DeletedPact(id), InsertedPact(id), AddedParticipants(id, ResolveIds(db.users, input.participants).value)]
  {
    var deleted := DeletePact(db, id);
    assert deleted.users == db.users && deleted.participants == db.participants;
    var run := StorePact(deleted, [DeletedPact(id)], RowFor(StoredId(Some(id), freshId), input), input.participants);
    assert id != [] ==> run.db.pacts == db.pacts[id := run.reply.value];
    run
  }

  /** `updatePact(body)`: the pact must exist, then the body must validate and
      every participant exist; only then the pact is deleted, re-created from
      the body under the id the delete echoed, and its participants added. */
  function UpdatePact(db: Db, body: Js.Body, freshId: PactId): (run: PactRun<PactRow>)
    requires FreshId(db, freshId)
    ensures !PactExists(db, Js.Get(body, "pact_id")) ==> run.reply == Failure(PactMissing)
    ensures PactExists(db, Js.Get(body, "pact_id")) && CheckCreatePactInput(body).Failure? ==>
      run.reply == Failure(CheckCreatePactInput(body).error)
    ensures PactExists(db, Js.Get(body, "pact_id")) && CheckCreatePactInput(body).Success? &&
            !AllRegistered(db.users, CheckCreatePactInput(body).value.participants) ==>
      run.reply == Failure(ParticipantMissing)
    ensures run.reply.Success? <==>
      && PactExists(db, Js.Get(body, "pact_id"))
      && CheckCreatePactInput(body).Success?
      && AllRegistered(db.users, CheckCreatePactInput(body).value.participants)
    ensures run.reply.Failure? ==> run.db == db && run.writes == []
    ensures run.reply.Success? && Js.Get(body, "pact_id") != Js.Str([]) ==>
      && var id := Js.Get(body, "pact_id").s;
      && var input := CheckCreatePactInput(body).value;
      && run.reply.value == RowFor(id, input)
      && run.db.pacts == db.pacts[id := run.reply.value]
      && run.writes == [DeletedPact(id), InsertedPact(id), AddedParticipants(id, ResolveIds(db.users, input.participants).value)]
    ensures run.reply.Success? ==>
      && run.db.users == db.users
      && NewParticipantRows(db, run.db, run.reply.value.pact_id, CheckCreatePactInput(body).value.participants)
  {
    var v := Js.Get(body, "pact_id");
    if !PactExists(db, v) then
      PactRun(db, [], Failure(PactMissing))
    else
      match CheckCreatePactInput(body)
      case Failure(e) => PactRun(db, [], Failure(e))
      case Success(input) =>
        if !AllRegistered(db.users, input.participants) then
          PactRun(db, [], Failure(ParticipantMissing))
        else
          Recreate(db, v.s, input, freshId)
  }
}

=== FILE: pact_properties.dfy ===
/** Consequences of the pact handler's check order and JavaScript
    truthiness, and of update being a delete followed by a re-create. */
module PactProperties {
  import opened Wrappers
  import Js
  import opened PactStore
  import opened PactHandler

  predicate NumericField(f: PactField) {
    f == Streak || f == PeriodLength || f == PeriodTarget
  }

  /** A numeric field holding `0` is falsy and rejected with that field's
      error, as soon as the fields checked before it are valid. */
  lemma ZeroIsRejected(body: Js.Body, f: PactField)
    requires NumericField(f)
    requires Js.Get(body, Key(f)) == Js.Num(0.0)
    requires forall g :: Rank(g) < Rank(f) ==> FieldValid(body, g)
    ensures CheckCreatePactInput(body) == Failure(Invalid(f))
  {
  }

  /** Only the first failing field is reported, whatever fails after it. */
  lemma FirstFailureWins(body: Js.Body, f: PactField, later: PactField)
    requires !FieldValid(body, f) && !FieldValid(body, later) && Rank(f) < Rank(later)
    ensures CheckCreatePactInput(body).Failure?
    ensures CheckCreatePactInput(body).error != Invalid(later)
  {
  }

  /** A single participant is too few; two are enough. */
  lemma ParticipantCountBoundary(name: Js.Value, other: Js.Value)
    ensures !FieldValid(map["participants" := Js.Arr([name])], Participants)
    ensures FieldValid(map["participants" := Js.Arr([name, other])], Participants)
  {
  }

  /** The participants are not required to be an array: a string whose
      `length` in UTF-16 code units exceeds one passes, and each code unit is
      looked up as a username. A single character outside the Basic
      Multilingual Plane is long enough, and its two lookups are of lone
      surrogates. */
  lemma StringParticipantsPass(s: Js.JsString)
    requires |s| >= 2
    ensures FieldValid(map["participants" := Js.Str(s)], Participants)
    ensures FieldValid(map["participants" := Js.Str(Js.Utf16("😀"))], Participants)
    ensures Js.Elements(Js.Str(Js.Utf16("😀"))) == [Js.Str([0xD83D]), Js.Str([0xDE00])]
  {
    assert Js.Utf16("😀") == [0xD83D, 0xDE00];
  }

  /** The participant-existence check fails exactly when some name has no
      user, and then nothing is written. */
  lemma MissingParticipantBlocksCreate(db: Db, body: Js.Body, freshId: PactId, i: nat)
    requires FreshId(db, freshId)
    requires CheckCreatePactInput(body).Success?
    requires i < |CheckCreatePactInput(body).value.participants|
    requires FindByUsername(db.users, CheckCreatePactInput(body).value.participants[i]).None?
    ensures CreatePact(db, body, freshId) == PactRun(db, [], Failure(ParticipantMissing))
  {
  }

  /** Deleting the pact row leaves its participant rows, so an update keeps
      the old rows and appends the new participants after them. */
  lemma UpdateKeepsOldParticipantRows(db: Db, body: Js.Body, freshId: PactId, row: (PactId, UserId))
    requires FreshId(db, freshId)
    requires UpdatePact(db, body, freshId).reply.Success?
    requires row in db.participants
    ensures row in UpdatePact(db, body, freshId).db.participants
  {
  }

  /** A pact stored under the empty id is re-created under a fresh id,
      because `Pact.createPact` only keeps a truthy id. */
  lemma EmptyIdIsReplaced(db: Db, body: Js.Body, freshId: PactId)
    requires FreshId(db, freshId)
    requires Js.Get(body, "pact_id") == Js.Str([])
    requires UpdatePact(db, body, freshId).reply.Success?
    ensures UpdatePact(db, body, freshId).reply.value.pact_id == freshId
    ensures [] !in UpdatePact(db, body, freshId).db.pacts
  {
  }

  /** The check order of update: a missing pact is reported even when the
      body is invalid too. */
  lemma UpdateChecksExistenceFirst(db: Db, body: Js.Body, freshId: PactId)
    requires FreshId(db, freshId)
    requires !PactExists(db, Js.Get(body, "pact_id"))
    requires !FieldValid(body, Title)
    ensures UpdatePact(db, body, freshId).reply == Failure(PactMissing)
  {
  }

  /** Deleting is not repeatable: the pact is gone, so a second delete of
      the same body rejects with "Pact error. Pact does not exist." */
  lemma DeleteThenDeleteFails(db: Db, body: Js.Body)
    requires DeletePactRun(db, body).reply.Success?
    ensures !PactExists(DeletePactRun(db, body).db, Js.Get(body, "pact_id"))
    ensures DeletePactRun(DeletePactRun(db, body).db, body).reply == Failure(PactMissing)
  {
  }
}

=== FILE: pact_store.dfy ===
/** The relational store behind the pact handler: the `Pact` table, the
    `PactParticipants` rows and the username lookup of the `User` table.
    `Pact.createPact`, `Pact.deletePact`, `Pact.findPact` and
    `User.findByUsername` follow db/Pact.js and db/User.js; the plural
    `Pact.addPartcipantsToPact` the handler calls is defined nowhere, so it
    is given an ASSUMED contract: one participant row per user id, in order. */
module PactStore {
  import opened Wrappers
  import Js

  type UserId = string

  /** A pact id as it arrives in a request body. */
  type PactId = Js.JsString

  /** A `Pact` row: the id and the six validated fields. */
  datatype PactRow = PactRow(
    pact_id: PactId,
    title: Js.JsString,
    description: Js.JsString,
    streak: real,
    period_length: real,
    period_target: real,
    privacy_level: Js.JsString)

  /** The store state; users are looked up by username. */
  datatype Db = Db(
    pacts: map<PactId, PactRow>,
    participants: seq<(PactId, UserId)>,
    users: map<Js.JsString, UserId>)

  /** The writes a handler run performs, in the order it performs them. */
  datatype Write =
    | InsertedPact(id: PactId)
    | DeletedPact(id: PactId)
    | AddedParticipants(id: PactId, users: seq<UserId>)

  /** `User.findByUsername(v)`: the user id, or `None` for `null`. */
  function FindByUsername(users: map<Js.JsString, UserId>, v: Js.Value): Option<UserId> {
    if v.Str? && v.s in users then Some(users[v.s]) else None
  }

  /** `Pact.findPact(v) != null`. */
  predicate PactExists(db: Db, v: Js.Value) {
    v.Str? && v.s in db.pacts
  }

  /** The id `Pact.createPact` stores under: a supplied truthy id is kept,
      otherwise the fresh `uuid()` value is used. */
  function StoredId(supplied: Option<PactId>, freshId: PactId): PactId {
    if supplied.Some? && supplied.value != [] then supplied.value else freshId
  }

  /** A `uuid()` value: non-empty and not yet used as a pact id. */
  predicate FreshId(db: Db, id: PactId) {
    id != [] && id !in db.pacts
  }

  /** `INSERT INTO Pact`. */
  function InsertPact(db: Db, row: PactRow): Db {
    db.(pacts := db.pacts[row.pact_id := row])
  }

  /** `DELETE FROM Pact WHERE pact_id = ?`: participant rows are not touched. */
  function DeletePact(db: Db, id: PactId): Db {
    db.(pacts := db.pacts - {id})
  }

  /** The assumed `Pact.addPartcipantsToPact({pact_id, users})`. */
  function AddParticipants(db: Db, id: PactId, users: seq<UserId>): (r: Db)
    ensures r.pacts == db.pacts && r.users == db.users
    ensures |r.participants| == |db.participants| + |users|
    ensures r.participants[..|db.participants|] == db.participants
  {
    db.(participants := db.participants + seq(|users|, i requires 0 <= i < |users| => (id, users[i])))
  }
}

=== FILE: wrappers.dfy ===
/** Failure-carrying results shared by every handler of the model. A rejected
    JavaScript promise becomes a `Failure`, a resolved one a `Success`. */
module Wrappers {

  datatype Option<+T> = None | Some(value: T)

  datatype Result<+T, +E> = Success(value: T) | Failure(error: E)

  /** A check that either passes or fails with an error and carries no value. */
  datatype Outcome<+E> = Pass | Fail(error: E)
}
